=== FILE: README.md ===
# PHPArray, the probe table and the entry chain

`PHPArray<V>` (PHPArray.java) is an ordered associative array in the style of
PHP's arrays: string keys (integer keys are turned into their decimal
string), values of any type, and iteration in first-insertion order. It keeps
two structures in step:

- the **probe table** `entries`: `M` slots of optional `(key, value)` nodes,
  open addressing with linear probing from the home slot
  `(key.hashCode() & 0x7fffffff) % M`, and no tombstones. `put` probes and
  updates or inserts; before probing it doubles the table when `N >= M/2`
  (integer division). `get` probes
  until an empty slot. `unset` clears the slot and then evicts and re-probes
  every later node of the same cluster. This is the linear-probing deletion of
  Knuth, The Art of Computer Programming, Vol. 3, section 6.4, Algorithm R.
  `unset` halves the table when it is left non-empty and at most one eighth
  full (`0 < N <= M/8`);
- the **entry chain**: a doubly-linked list through the live nodes, head
  first, in first-insertion order. It drives `keys()`, `values()`, `pairs()`,
  `array_reverse()` and the `each()`/`reset()` cursor.

The model is functional. A state is the record
`PHPArray(slots, order, n, cursor)`:

- `slots` is the table; `M` is its length;
- `order` is the chain as the sequence of its keys;
- `n` is the count `N`;
- `cursor` stands for the `iter` field.

`Valid` is the representation invariant:

- `0 <= N < M`, so `M > 0`;
- `N` is the number of occupied slots;
- keys are unique in the table and in the chain;
- the chain lists exactly the keys the table binds;
- the **probe invariant** holds: every slot on the cyclic path from a node's
  home slot to the node is occupied.

`Abstract` maps a valid state to a ghost insertion-ordered map
(`OrderedMaps`). Every operation is proved to refine the matching operation
on that map:

- `put` refines `OPut`: a new key goes to the end, a live key keeps its place;
- `get` refines `OGet`;
- `unset` refines `OUnset`.

Cyclic slot arithmetic is written without `%` (`Cyclic`). Deletion is proved
in `ClusterRepair`. Its invariant says that every node is either reachable
from its home slot or "pending": it still lies in the run being repaired,
and that run can be crossed to reach it. The repair measure is the length of
the run that remains.

Modules: `Wrappers`, `Cyclic`, `Hashing`, `EntryChain`, `OrderedMaps`,
`ProbeTable`, `ClusterRepair`, `IntKeys`, `PHPArrays` (the operations),
`Properties` (the properties stated on the public views), `NullValues` (the
null-value defect and its correction).

## Model

| member | source | states |
|---|---|---|
| Hashing.Home | PHPArray.java:184-186 | the home slot `(hashCode & 0x7fffffff) % M` is a slot of the table |
| Hashing.HashCodeKnownValues | PHPArray.java:185 | the model's `hashCode` agrees with Java's on `""`, `"a"` and `"ab"` (0, 97, 3105) |
| ProbeTable.Lookup | PHPArray.java:84-89 | the reference meaning of a table: a key is missing exactly when no slot holds it |
| ProbeTable.ProbeLocates | PHPArray.java:50-56 | with an empty slot and the probe invariant, the probe `Probe` (stepping through `ProbeFrom`) from the home slot stops at the slot that holds the key, or at an empty slot, and then no slot holds the key |
| ProbeTable.ProbeLookup | PHPArray.java:84-89 | the probing `get` loop returns exactly the reference lookup |
| ProbeTable.WriteNew | PHPArray.java:58 | storing a node for an absent key in an empty slot binds that key, adds one occupied slot and changes no other binding |
| ProbeTable.WriteOver | PHPArray.java:52-54 | replacing the value of a live key's node changes that binding only and keeps the occupied count |
| ProbeTable.ClearSlot | PHPArray.java:138-139 | clearing a live key's slot unbinds it, removes one occupied slot and changes no other binding |
| ProbeTable.ProbeInvFill | PHPArray.java:50-58 | filling the first empty slot of a key's probe path keeps the probe invariant |
| ClusterRepair.Rehash | PHPArray.java:114-124 | the node lands in the first empty slot from its home slot; it is reachable there, no other slot changes, and the probe invariant is kept |
| ClusterRepair.RepairStart | PHPArray.java:138-139 | clearing one slot of a table that keeps the probe invariant leaves every node reachable or pending in the run after the cleared slot |
| ClusterRepair.Repair | PHPArray.java:161-169 | evicting and re-probing the rest of the cluster, one `Evict` per turn, restores the probe invariant, keeps keys unique and the occupied count, and changes no lookup |
| EntryChain.WithoutMembers | PHPArray.java:141-159 | unlinking a key from the chain keeps the others, still distinct, one fewer, and is the identity when the key is absent |
| EntryChain.UnlinkIsWithout | PHPArray.java:141-159 | `Unlink`, splicing out the node of a key (head, tail, both or middle), is the same as filtering the key out of the chain |
| EntryChain.ReverseNoDup | PHPArray.java:424-429 | `Reverse`, the chain read from tail to head, has the same keys, still distinct |
| IntKeys.IntToStringRoundTrip | PHPArray.java:78-81 | `IntToString`, the decimal string of a 32-bit `int`, reads back to that `int` |
| IntKeys.IntKeysDistinct | PHPArray.java:92-95 | distinct integer keys never collide as string keys |
| PHPArrays.Empty | PHPArray.java:18-25 | `new PHPArray(capacity)` for a positive capacity is valid, has exactly `capacity` slots and stands for the empty map |
| PHPArrays.Rebuild | PHPArray.java:102-106 | re-inserting the keys `ks` with their values into a table at most half full after them appends them to the chain in order and binds each one to its old value; no other binding changes; the requires shows that the growth check of the nested `temp.put` never fires |
| PHPArrays.New | PHPArray.java:13-25 | a new array is valid, has `INIT_CAPACITY` = 4 slots and stands for the empty map |
| PHPArrays.Get | PHPArray.java:84-89 | `get` returns the abstract map's binding, and a value exactly when the key is on the chain |
| PHPArrays.Insert | PHPArray.java:48-74 | when `N < M/2` (integer division), a new key is appended to the chain with the cursor reset to the head, a live key is rebound in place with the cursor kept, and no other binding changes |
| PHPArrays.Resize | PHPArray.java:98-111 | re-inserting the chain in order into a table of the new capacity keeps the abstract map and key order; an existing cursor is left stale |
| PHPArrays.Put | PHPArray.java:38-75 | `put` refines `OPut`, doubles `M` exactly when `N >= M/2`, resets the cursor on a new key and keeps it on an in-place update without growth |
| PHPArrays.Remove | PHPArray.java:131-171 | deleting a live key (unlink, clear, cluster repair, `N--`) refines `OUnset` and keeps `M` |
| PHPArrays.Unset | PHPArray.java:127-176 | `unset` refines `OUnset`, is the identity on an absent key, and halves `M` exactly when `0 < N <= M/8` afterwards |
| PHPArrays.PutInt | PHPArray.java:78-81 | `put(int, V)` binds the key's decimal string |
| PHPArrays.GetInt | PHPArray.java:92-95 | `get(int)` reads the key's decimal string |
| PHPArrays.UnsetInt | PHPArray.java:178-181 | `unset(int)` removes the key's decimal string |
| PHPArrays.Length | PHPArray.java:312-314 | `length()` is the number of keys of the abstract map |
| PHPArrays.Keys | PHPArray.java:277-285 | `keys()` is the abstract key order: `length()` distinct keys, exactly those `get` finds |
| PHPArrays.Values | PHPArray.java:289-297 | `values()` lists, for each key of the chain in order, the value the table binds to it |
| PHPArrays.Pairs | PHPArray.java:322-330 | `pairs()` lists, for each key of the chain in order, that key with the value the table binds to it |
| PHPArrays.Clear | PHPArray.java:334-338 | `clear()` leaves a valid empty map of the same capacity |
| PHPArrays.Reset | PHPArray.java:317-319 | `reset()` puts the cursor at the head and changes nothing else |
| PHPArrays.Each | PHPArray.java:266-274 | `each()` hands out the pair at the cursor and advances, or returns null past the tail; a missing cursor starts at the head; the table and chain are unchanged |
| PHPArrays.PutAll | PHPArray.java:425-429 | putting the keys of `ks` with their values appends them to the chain in that order and binds them |
| PHPArrays.ArrayReverse | PHPArray.java:422-431 | `array_reverse()` resets the cursor and returns an array whose `keys()` is the reverse of the original's, with the same bindings |
| Properties.InsertFirstEmpty | PHPArray.java:50-58 | a new key is stored in the first empty slot of its probe path, every earlier probed slot is occupied, and no other slot changes |
| Properties.PutNewKey | PHPArray.java:57-74 | `put` of a new key appends it to `keys()`, adds one to `length()`, binds it, leaves every other `get`, and resets the cursor |
| Properties.PutUpdateInPlace | PHPArray.java:52-54 | `put` of a live key keeps `keys()` and `length()`, rebinds only that key, and keeps the cursor when no growth happens |
| Properties.UnsetAbsent | PHPArray.java:128-129 | `unset` of an absent key changes nothing |
| Properties.UnsetPresent | PHPArray.java:131-171 | `unset` of a live key removes exactly it from `keys()`, keeping the rest in order, subtracts one from `length()` and leaves every other `get` |
| Properties.UnsetUndoesPut | PHPArray.java:38-75 | `unset` after `put` of an absent key gives back the original map and key order |
| Properties.ResizeTransparent | PHPArray.java:98-111 | a resize keeps `keys()`, every `get` and `length()`, and `N` stays below the new `M` |
| Properties.CapacityPolicy | PHPArray.java:43-46 | `put` doubles `M` exactly when `N >= M/2`; `unset` of a live key halves `M` when `0 < N <= M/8` afterwards; both keep `N < M` |
| Properties.LastKeyNoShrink | PHPArray.java:171-175 | removing the only key leaves `N = 0`, so the `N > 0` guard keeps `M` however large it is |
| Properties.CapacityFloor | PHPArray.java:174-175 | a table of at least `INIT_CAPACITY` slots never shrinks below it |
| Properties.DrainElements | PHPArray.java:236-245 | the reference drain from position `i` is the rest of the pairs, each wrapped, then null |
| Properties.EachStep | PHPArray.java:269-273 | before the tail, `each()` returns the pair at the cursor and moves the cursor one on; at the tail it returns null |
| Properties.EachFrom | PHPArray.java:266-274 | from position `i`, successive `each()` calls yield the reference drain of `pairs()` from `i` |
| Properties.EachAfterReset | PHPArray.java:317-319 | after `reset()`, `length() + 1` calls of `each()` give the pairs in `pairs()` order and then null |
| Properties.EachLazyReset | PHPArray.java:267-268 | with no cursor, `each()` behaves as `reset()` followed by `each()` |
| Properties.ViewsAligned | PHPArray.java:277-297 | `keys()`, `values()` and `pairs()` have length `N` and line up entry by entry, with distinct keys and each value the one `get` returns |
| Properties.ClearEmpties | PHPArray.java:334-338 | after `clear()`, `keys()` is empty, `length()` is 0, every `get` is null and `M` is kept |
| NullValues.JavaGet | PHPArray.java:84-89 | Java's `get` is null both for a missing key and for a key bound to null |
| NullValues.UnsetAsWritten | PHPArray.java:127-129 | `unset` treats a key bound to null as missing and leaves it |
| NullValues.PutAsWritten | PHPArray.java:38-75 | `put(k, null)` ends with `k` on the chain, bound to null |
| NullValues.NullEntrySticks | PHPArray.java:39-40 | after `put(k, null)` of a fresh key, `get` says missing, yet `keys()` lists it, `length()` counts it and `unset(k)` does not remove it |
| NullValues.PutNullable | PHPArray.java:38-40 | the intended `put`: a null value removes the key (refines `OUnset`), any other value is stored (refines `OPut`) |
| NullValues.PutNullableNoNulls | PHPArray.java:38-40 | the intended `put` never leaves a key bound to null |
| NullValues.UnsetGuardExact | PHPArray.java:128-129 | when no key is bound to null, the `get(key) == null` guard of `unset` is exact |
| NullValues.PutNullThenUnset | PHPArray.java:38-40 | with the intended `put`, `put(k, null)` removes `k`, so `length()` drops by one exactly when `k` was live |

## Left out

- Console output: the `System.out.println` calls in `put` and `rehash`, and all of `showTable`. They have no effect on the state.
- `array_sum` and `array_product`: floating-point reductions over `instanceof Number` checks.
- `shuffle`: it depends on `Collections.shuffle` randomness.
- `sort`, `asort`, `array_flip` and `array_change_key_case`: they rest on `Collections.sort`, raw `Comparable` casts, runtime `instanceof` checks and locale-dependent case mapping.
- `iterator()`, `PIterator()`, `MyIterator` and `MyPIterator`: only the sequences they yield are modelled, as `Values` and `Pairs`. Node identity and the `prev`/`next` links are modelled as the key sequence `order`.
- PHPArrays.Each: requires a cursor that is not stale. The model does not track a cursor across a present-key `unset`, a resize or `clear`, and `Invalidate` marks it `Stale` there. After `unset` the Java iterator keeps its node, so its index in the chain can shift. It may also stand on the removed node, which then hands out the removed pair and stops early, because line 159 clears that node's `next`. After a resize or `clear` it walks the old nodes. The model does not say what `each()` returns in any of these cases.
- PHPArrays.Empty: requires a capacity above 0. `new PHPArray(0)` would divide by zero in `hash`, and a negative capacity, which the `nat` parameter excludes, makes `new Node[M]` (PHPArray.java:21) throw `NegativeArraySizeException`. The model does not follow either case.
- PHPArrays.Put: takes a non-null value. `put(k, null)` is modelled separately in `NullValues`.
- PHPArrays.Put: `N` and `M` are modelled as unbounded integers, so `|r.slots| == 2 * |a.slots|` holds at every size. In Java, once `M` reaches 2^30, `resize(2 * M)` (PHPArray.java:45) overflows `int` to a negative capacity and `new Node[M]` throws. The model does not follow that wrap.
- Hashing.HashCode: works on Dafny characters rather than Java's UTF-16 code units. The two agree below U+10000. No proof depends on the hash beyond `Home(k, M) < M`.
- ProbeTable.ProbeFrom: stops after `M` steps. The Java loops have no bound, but they never run that long while `N < M`, which `Valid` keeps.
- Capacity floor: `unset` has no check that keeps `M` at or above `INIT_CAPACITY` (PHPArray.java:174-175). `Properties.CapacityFloor` shows that a table of at least 4 slots never drops below 4.

## Findings

| source | as written | input that shows it | evidently intended | confidence | as-written member | corrected member |
|---|---|---|---|---|---|---|
| PHPArray.java:39-40 | after `unset(key)` for a null value, `put` does not return: it falls through and inserts `key -> null` at the tail, and `unset`'s `get(key) == null` guard (line 128) then treats that entry as missing forever | `put("k", null)` on an array without `"k"`; `get("k")` is null, yet `keys()` contains `"k"`, `length()` counted it, and `unset("k")` leaves it | `put(key, null)` is `unset(key)` and returns | not executed | NullValues.NullEntrySticks | NullValues.PutNullable |

=== FILE: cluster_repair.dfy ===
/**
 Tombstone-free deletion from the probe table (PHPArray.java:114-124,
 161-169): after a slot is cleared, every later node of the same cluster is
 evicted and re-probed from its home slot, until an empty slot ends the
 cluster. This is the classic linear-probing deletion (Knuth, The Art of
 Computer Programming, Vol. 3, section 6.4, Algorithm R), done by re-probing
 every node rather than by testing which ones must move.
 */
module ClusterRepair {
  import opened Wrappers
  import opened Cyclic
  import opened Hashing
  import opened ProbeTable

  /** Steps from `j` to the first empty slot, searching from step `d` on; `|s|` if there is none. */
  function FreeFrom<V>(s: Slots<V>, j: nat, d: nat): (r: nat)
    requires j < |s| && d <= |s|
    ensures d <= r <= |s|
    ensures forall e :: d <= e < r ==> s[Index(j, e, |s|)].Some?
    ensures r < |s| ==> s[Index(j, r, |s|)].None?
    decreases |s| - d
  {
    if d == |s| then d
    else if s[Index(j, d, |s|)].None? then d
    else FreeFrom(s, j, d + 1)
  }

  /** Length of the run of occupied slots that starts at `j`. */
  function FirstFree<V>(s: Slots<V>, j: nat): nat
    requires j < |s|
  {
    FreeFrom(s, j, 0)
  }

  lemma FirstFreeBound<V>(s: Slots<V>, j: nat, e: nat)
    requires j < |s| && e < |s| && s[Index(j, e, |s|)].None?
    ensures FirstFree(s, j) <= e
  {
  }

  lemma FirstFreeExact<V>(s: Slots<V>, j: nat, n: nat)
    requires j < |s| && n < |s|
    requires forall e :: 0 <= e < n ==> s[Index(j, e, |s|)].Some?
    requires s[Index(j, n, |s|)].None?
    ensures FirstFree(s, j) == n
  {
    FirstFreeBound(s, j, n);
  }

  /**
   The source's `rehash(node)`: probe from the node's home slot, without
   comparing keys, and put the node into the first empty slot met. The node
   lands in an empty slot whose probe path is occupied, so the probe
   invariant and the bindings of the other keys survive.
   */
  function Rehash<V>(s: Slots<V>, node: Node<V>): (r: Slots<V>)
    requires 0 < |s| && FirstFree(s, Home(node.key, |s|)) < |s|
    ensures |r| == |s|
    ensures var f := Index(Home(node.key, |s|), FirstFree(s, Home(node.key, |s|)), |s|);
      s[f].None? && r[f] == Some(node) && Reachable(r, f) &&
      forall q :: 0 <= q < |s| && q != f ==> r[q] == s[q]
    ensures ProbeInv(s) ==> ProbeInv(r)
  {
    var h := Home(node.key, |s|);
    var f := Index(h, FirstFree(s, h), |s|);
    DistOfIndex(h, FirstFree(s, h), |s|);
    FillKeepsInv(s, f, node);
    s[f := Some(node)]
  }

  lemma FillKeepsInv<V>(s: Slots<V>, f: nat, node: Node<V>)
    requires f < |s| && s[f].None?
    requires forall e :: 0 <= e < Dist(Home(node.key, |s|), f, |s|) ==>
      s[Index(Home(node.key, |s|), e, |s|)].Some?
    ensures ProbeInv(s) ==> ProbeInv(s[f := Some(node)])
  {
    if ProbeInv(s) {
      ProbeInvFill(s, f, node);
    }
  }

  /** One turn of the repair loop (PHPArray.java:165-167): evict the node at `j` and re-probe it. */
  function Evict<V>(s: Slots<V>, j: nat): (r: Slots<V>)
    requires j < |s| && s[j].Some?
    ensures |r| == |s|
  {
    var node := s[j].value;
    var s1 := s[j := None];
    var h := Home(node.key, |s|);
    FirstFreeBound(s1, h, Dist(h, j, |s|));
    Rehash(s1, node)
  }

  /**
   A node of the unprocessed run that starts at `j` whose probe path does
   not cross the empty slot ending that run: it may still sit behind a
   hole, but re-probing it cannot carry it past the end of the run.
   */
  ghost predicate Pending<V>(s: Slots<V>, j: nat, p: nat)
    requires j < |s| && p < |s| && s[p].Some? && FirstFree(s, j) < |s|
  {
    var m := |s|;
    var n := FirstFree(s, j);
    var end := Index(j, n, m);
    var h := Home(s[p].value.key, m);
    Dist(j, p, m) < n && Dist(h, p, m) < Dist(h, end, m)
  }

  /** The loop invariant of the repair: every node is reachable, or pending in the run from `j`. */
  ghost predicate RepairInv<V>(s: Slots<V>, j: nat)
    requires j < |s|
  {
    && FirstFree(s, j) < |s|
    && forall p :: 0 <= p < |s| && s[p].Some? ==> Reachable(s, p) || Pending(s, j, p)
  }

  /**
   A node whose probe path is occupied from step `c` (slot `j`) up to the
   node, and which meets the end of the run from `j` nowhere before step `c`,
   is pending in that run.
   */
  lemma PendingFromPath<V>(t: Slots<V>, j: nat, p: nat, c: nat)
    requires j < |t| && p < |t| && t[p].Some? && FirstFree(t, j) < |t|
    requires var h := Home(t[p].value.key, |t|);
      c <= Dist(h, p, |t|) && Index(h, c, |t|) == j
    requires var h := Home(t[p].value.key, |t|);
      forall e :: c <= e <= Dist(h, p, |t|) ==> t[Index(h, e, |t|)].Some?
    requires var h := Home(t[p].value.key, |t|);
      forall e :: 0 <= e < c ==> Index(h, e, |t|) != Index(j, FirstFree(t, j), |t|)
    ensures Pending(t, j, p)
  {
    var m := |t|;
    var h := Home(t[p].value.key, m);
    var d := Dist(h, p, m);
    var n := FirstFree(t, j);
    var end := Index(j, n, m);
    DistShift(h, c, d, m);
    forall e | 0 <= e <= d - c ensures t[Index(j, e, m)].Some? {
      IndexShift(h, c, e, m);
    }
    assert t[Index(j, n, m)].None?;
    var de := Dist(h, end, m);
    assert Index(h, de, m) == end;
  }

  /** A reachable node whose path runs through `j` lies in the run from `j`, pending. */
  lemma ReachableThrough<V>(s: Slots<V>, j: nat, p: nat, c: nat)
    requires j < |s| && p < |s| && s[p].Some? && FirstFree(s, j) < |s|
    requires Reachable(s, p)
    requires var h := Home(s[p].value.key, |s|);
      c <= Dist(h, p, |s|) && Index(h, c, |s|) == j
    ensures Pending(s, j, p)
  {
    var h := Home(s[p].value.key, |s|);
    assert s[Index(j, FirstFree(s, j), |s|)].None?;
    PendingFromPath(s, j, p, c);
  }

  /** When the loop stops at an empty slot every node is reachable again. */
  lemma RepairDone<V>(s: Slots<V>, j: nat)
    requires j < |s| && s[j].None? && RepairInv(s, j)
    ensures ProbeInv(s)
  {
    FirstFreeBound(s, j, 0);
  }

  /** Where `Evict` puts the node it takes from `j`, and why that is before the end of the run. */
  lemma EvictTarget<V>(s: Slots<V>, j: nat) returns (f: nat)
    requires j < |s| && s[j].Some? && RepairInv(s, j)
    ensures f < |s| && f != j ==> s[f].None?
    ensures f < |s| && Evict(s, j) == s[j := None][f := s[j]]
    ensures var n := FirstFree(s, j); 1 <= n && f != Index(j, n, |s|)
    ensures var h := Home(s[j].value.key, |s|);
      forall e :: 0 <= e < Dist(h, f, |s|) ==> s[j := None][Index(h, e, |s|)].Some?
  {
    var m := |s|;
    var node := s[j].value;
    var s1 := s[j := None];
    var h := Home(node.key, m);
    var n := FirstFree(s, j);
    var end := Index(j, n, m);
    assert Index(j, 0, m) == j;
    assert Dist(h, j, m) < Dist(h, end, m) by {
      assert Reachable(s, j) || Pending(s, j, j);
      assert s[Index(h, Dist(h, end, m), m)].None?;
    }
    FirstFreeBound(s1, h, Dist(h, j, m));
    var free := FirstFree(s1, h);
    f := Index(h, free, m);
    DistOfIndex(h, free, m);
  }

  /** What one turn of the loop does to a node that stays where it was. */
  lemma EvictKeeps<V>(s: Slots<V>, j: nat, t: Slots<V>, p: nat)
    requires j < |s| && s[j].Some? && RepairInv(s, j) && |t| == |s|
    requires 1 <= FirstFree(s, j) && Next(j, |s|) < |t|
    requires FirstFree(t, Next(j, |s|)) == FirstFree(s, j) - 1
    requires Index(Next(j, |s|), FirstFree(s, j) - 1, |s|) == Index(j, FirstFree(s, j), |s|)
    requires forall q :: 0 <= q < |s| && s[q].Some? && q != j ==> t[q].Some?
    requires p < |s| && p != j && s[p].Some? && t[p] == s[p]
    ensures Reachable(t, p) || Pending(t, Next(j, |s|), p)
  {
    var m := |s|;
    var h := Home(s[p].value.key, m);
    var d := Dist(h, p, m);
    var dj := Dist(h, j, m);
    if dj < d && Reachable(s, p) {
      ReachableThrough(s, j, p, dj);
    }
    if Pending(s, j, p) {
      DistNext(j, p, m);
    } else {
      forall e | 0 <= e < d ensures t[Index(h, e, m)].Some? {
        DistOfIndex(h, e, m);
      }
    }
  }

  /** One turn of the loop shortens the run from the current slot by one. */
  lemma EvictRun<V>(s: Slots<V>, j: nat, f: nat)
    requires j < |s| && s[j].Some? && FirstFree(s, j) < |s|
    requires f < |s| && Evict(s, j) == s[j := None][f := s[j]]
    requires 1 <= FirstFree(s, j) && f != Index(j, FirstFree(s, j), |s|)
    ensures FirstFree(Evict(s, j), Next(j, |s|)) == FirstFree(s, j) - 1
    ensures Index(Next(j, |s|), FirstFree(s, j) - 1, |s|) == Index(j, FirstFree(s, j), |s|)
  {
    var m := |s|;
    var t := Evict(s, j);
    var n := FirstFree(s, j);
    var end := Index(j, n, m);
    var j' := Next(j, m);
    assert Dist(j, j, m) == 0;
    assert t[end].None?;
    forall e | 0 <= e < n - 1 ensures t[Index(j', e, m)].Some? {
      IndexNext(j, e, m);
      DistOfIndex(j, e + 1, m);
    }
    IndexNext(j, n - 1, m);
    FirstFreeExact(t, j', n - 1);
  }

  /** One turn of the loop moves a node and therefore no binding. */
  lemma EvictBindings<V>(s: Slots<V>, j: nat, f: nat)
    requires j < |s| && s[j].Some? && KeysUnique(s)
    requires f < |s| && (f != j ==> s[f].None?)
    ensures KeysUnique(s[j := None][f := s[j]])
    ensures Count(s[j := None][f := s[j]]) == Count(s)
    ensures forall k :: Lookup(s[j := None][f := s[j]], k) == Lookup(s, k)
  {
    var node := s[j].value;
    var s1 := s[j := None];
    ClearSlot(s, j);
    WriteNew(s1, f, node);
    LookupAt(s, j, node.key);
  }

  /** One turn of the repair loop keeps its invariant and shortens the run by one. */
  lemma RepairStep<V>(s: Slots<V>, j: nat)
    requires j < |s| && s[j].Some? && KeysUnique(s) && RepairInv(s, j)
    ensures FirstFree(Evict(s, j), Next(j, |s|)) == FirstFree(s, j) - 1
    ensures RepairInv(Evict(s, j), Next(j, |s|))
    ensures KeysUnique(Evict(s, j)) && Count(Evict(s, j)) == Count(s)
    ensures forall k :: Lookup(Evict(s, j), k) == Lookup(s, k)
  {
    var m := |s|;
    var t := Evict(s, j);
    var j' := Next(j, m);
    var f := EvictTarget(s, j);
    EvictRun(s, j, f);
    EvictBindings(s, j, f);
    forall p | 0 <= p < m && t[p].Some? ensures Reachable(t, p) || Pending(t, j', p) {
      if p == f {
        assert Reachable(t, p);
      } else {
        EvictKeeps(s, j, t, p);
      }
    }
  }

  /**
   The repair loop of `unset` (PHPArray.java:162-169): walk the run of
   occupied slots from `j`, evicting and re-probing each node, until an
   empty slot. It restores the probe invariant and moves no binding.
   */
  function Repair<V>(s: Slots<V>, j: nat): (r: Slots<V>)
    requires j < |s| && KeysUnique(s) && RepairInv(s, j)
    ensures |r| == |s| && ProbeInv(r) && KeysUnique(r) && Count(r) == Count(s)
    ensures forall k :: Lookup(r, k) == Lookup(s, k)
    decreases FirstFree(s, j)
  {
    if s[j].None? then
      RepairDone(s, j);
      s
    else
      RepairStep(s, j);
      Repair(Evict(s, j), Next(j, |s|))
  }

  /** A node of the table after slot `i` was cleared: reachable, or pending from the next slot. */
  lemma StartNode<V>(s: Slots<V>, i: nat, p: nat)
    requires i < |s| && s[i].Some?
    requires p < |s| && p != i && Reachable(s, p)
    requires FirstFree(s[i := None], Next(i, |s|)) < |s|
    requires Index(Next(i, |s|), FirstFree(s[i := None], Next(i, |s|)), |s|) != i
    ensures Reachable(s[i := None], p) || Pending(s[i := None], Next(i, |s|), p)
  {
    var m := |s|;
    var s0 := s[i := None];
    var j := Next(i, m);
    var h := Home(s[p].value.key, m);
    var d := Dist(h, p, m);
    var c := Dist(h, i, m);
    if c < d {
      IndexShift(h, c, 1, m);
      assert Index(i, 1, m) == j;
      var end := Index(j, FirstFree(s0, j), m);
      assert s0[end].None?;
      forall e | 0 <= e < c + 1 ensures Index(h, e, m) != end {
        if e < c {
          DistOfIndex(h, e, m);
          assert s0[Index(h, e, m)].Some?;
        }
      }
      forall e | c + 1 <= e <= d ensures s0[Index(h, e, m)].Some? {
        DistOfIndex(h, e, m);
      }
      PendingFromPath(s0, j, p, c + 1);
    } else {
      forall e | 0 <= e < d ensures s0[Index(h, e, m)].Some? {
        DistOfIndex(h, e, m);
      }
    }
  }

  /** After clearing slot `i` of a table with another empty slot, the run from the next slot stops short of `i`. */
  lemma StartRun<V>(s: Slots<V>, i: nat)
    requires i < |s| && s[i].Some? && Count(s) < |s|
    ensures FirstFree(s[i := None], Next(i, |s|)) < |s|
    ensures Index(Next(i, |s|), FirstFree(s[i := None], Next(i, |s|)), |s|) != i
  {
    var m := |s|;
    var s0 := s[i := None];
    var j := Next(i, m);
    var x := EmptySlotExists(s);
    DistNext(i, x, m);
    FirstFreeBound(s0, j, Dist(j, x, m));
    var n := FirstFree(s0, j);
    IndexNext(i, n, m);
    DistOfIndex(i, n + 1, m);
    assert Dist(i, i, m) == 0;
  }

  /**
   Clearing the slot of a node of a valid table sets up the repair loop at
   the next slot: the run from there ends before the cleared slot, and every
   node whose path crossed the cleared slot is pending in that run.
   */
  lemma RepairStart<V>(s: Slots<V>, i: nat)
    requires i < |s| && s[i].Some? && Count(s) < |s|
    requires ProbeInv(s)
    ensures RepairInv(s[i := None], Next(i, |s|))
  {
    var s0 := s[i := None];
    var j := Next(i, |s|);
    StartRun(s, i);
    forall p | 0 <= p < |s| && s0[p].Some? ensures Reachable(s0, p) || Pending(s0, j, p) {
      StartNode(s, i, p);
    }
  }
}

=== FILE: cyclic.dfy ===
/**
 Arithmetic on slot indices of a table of `m` slots, read cyclically.
 The source advances a probe with `(i + 1) % M`; here the same walk is
 written with explicit offsets so that the solver stays in linear arithmetic:
 `Index(h, e, m)` is the slot reached `e` steps after `h`, and `Dist(a, b, m)`
 is the number of steps from `a` forward to `b`.
 */
module Cyclic {

  /** The slot after `j`, wrapping to 0: the source's `(i + 1) % M`. */
  function Next(j: nat, m: nat): (r: nat)
    requires j < m
    ensures r < m
    ensures r == Index(j, 1 % m, m)
  {
    if j + 1 < m then j + 1 else 0
  }

  /** The slot `e` steps after `h`. */
  function Index(h: nat, e: nat, m: nat): (r: nat)
    requires h < m && e < m
    ensures r < m
    ensures r == (h + e) % m
  {
    if h + e < m then h + e else h + e - m
  }

  /** The number of steps from `a` forward to `b`. */
  function Dist(a: nat, b: nat, m: nat): (r: nat)
    requires a < m && b < m
    ensures r < m
    ensures Index(a, r, m) == b
  {
    if a <= b then b - a else b + m - a
  }

  lemma DistOfIndex(h: nat, e: nat, m: nat)
    requires h < m && e < m
    ensures Dist(h, Index(h, e, m), m) == e
  {
  }

  lemma IndexShift(h: nat, c: nat, e: nat, m: nat)
    requires h < m && c + e < m
    ensures Index(Index(h, c, m), e, m) == Index(h, c + e, m)
  {
  }

  lemma DistShift(h: nat, c: nat, d: nat, m: nat)
    requires h < m && c <= d < m
    ensures Dist(Index(h, c, m), Index(h, d, m), m) == d - c
  {
  }

  lemma IndexNext(j: nat, e: nat, m: nat)
    requires j < m && e + 1 < m
    ensures Index(Next(j, m), e, m) == Index(j, e + 1, m)
  {
  }

  lemma DistNext(j: nat, b: nat, m: nat)
    requires j < m && b < m && j != b
    ensures Dist(Next(j, m), b, m) == Dist(j, b, m) - 1
  {
  }
}

=== FILE: entry_chain.dfy ===
/**
 The entry chain: the doubly-linked list that threads every live entry in
 first-insertion order (PHPArray.java:8-9, 58-69, 138-159). Node identity and
 the `prev`/`next` pointers are abstracted to the sequence of keys read from
 `head` to `tail`.
 */
module EntryChain {

  /** No key occurs twice in the chain. */
  predicate NoDup(s: seq<string>) {
    forall i, j :: 0 <= i < j < |s| ==> s[i] != s[j]
  }

  /** Position of `k` in the chain (the node the table hands to the unlink). */
  function IndexOf(s: seq<string>, k: string): (i: nat)
    requires k in s
    ensures i < |s| && s[i] == k
    ensures forall j :: 0 <= j < i ==> s[j] != k
  {
    if s[0] == k then 0 else 1 + IndexOf(s[1..], k)
  }

  /**
   Unlinks the node holding `k`: the head, tail, singleton and interior cases
   of PHPArray.java:141-157 all splice the two neighbours together.
   */
  function Unlink(s: seq<string>, k: string): (r: seq<string>)
    requires k in s
    ensures |r| == |s| - 1
  {
    var i := IndexOf(s, k);
    s[..i] + s[i + 1..]
  }

  /** Reference definition: the chain with every occurrence of `k` filtered out. */
  function Without(s: seq<string>, k: string): seq<string>
  {
    if |s| == 0 then []
    else if s[0] == k then Without(s[1..], k)
    else [s[0]] + Without(s[1..], k)
  }

  /** Filtering keeps exactly the other keys and keeps them distinct. */
  lemma {:induction false} WithoutMembers(s: seq<string>, k: string)
    requires NoDup(s)
    ensures forall x :: x in Without(s, k) <==> x in s && x != k
    ensures NoDup(Without(s, k))
    ensures k in s ==> |Without(s, k)| == |s| - 1
    ensures k !in s ==> Without(s, k) == s
  {
    if |s| > 0 {
      assert NoDup(s[1..]) by {
        forall i, j | 0 <= i < j < |s[1..]| ensures s[1..][i] != s[1..][j] {
          assert s[1..][i] == s[i + 1] && s[1..][j] == s[j + 1];
        }
      }
      WithoutMembers(s[1..], k);
      assert s[0] !in s[1..] by {
        forall j | 0 <= j < |s[1..]| ensures s[1..][j] != s[0] {
          assert s[1..][j] == s[j + 1];
        }
      }
      if s[0] != k {
        var w := Without(s[1..], k);
        assert Without(s, k) == [s[0]] + w;
        forall i, j | 0 <= i < j < |[s[0]] + w| ensures ([s[0]] + w)[i] != ([s[0]] + w)[j] {
          if i == 0 {
            assert ([s[0]] + w)[j] == w[j - 1];
            assert w[j - 1] in w;
          } else {
            assert ([s[0]] + w)[i] == w[i - 1] && ([s[0]] + w)[j] == w[j - 1];
          }
        }
      } else {
        assert k !in s[1..];
      }
      assert s == [s[0]] + s[1..];
    }
  }

  /** The O(1) splice removes exactly `k` and keeps the others in their order. */
  lemma {:induction false} UnlinkIsWithout(s: seq<string>, k: string)
    requires NoDup(s) && k in s
    ensures Unlink(s, k) == Without(s, k)
  {
    if s[0] == k {
      assert Unlink(s, k) == s[1..];
      WithoutMembers(s[1..], k);
      assert k !in s[1..] by {
        forall j | 0 <= j < |s[1..]| ensures s[1..][j] != k {
          assert s[1..][j] == s[j + 1];
        }
      }
    } else {
      assert NoDup(s[1..]) by {
        forall i, j | 0 <= i < j < |s[1..]| ensures s[1..][i] != s[1..][j] {
          assert s[1..][i] == s[i + 1] && s[1..][j] == s[j + 1];
        }
      }
      assert k in s[1..] by {
        var i := IndexOf(s, k);
        assert s[1..][i - 1] == k;
      }
      UnlinkIsWithout(s[1..], k);
      var i := IndexOf(s, k);
      assert IndexOf(s[1..], k) == i - 1;
      assert s[..i] == [s[0]] + s[1..][..i - 1];
      assert s[i + 1..] == s[1..][i..];
    }
  }

  /** The chain read from `tail` back to `head` through the `prev` links. */
  function Reverse(s: seq<string>): (r: seq<string>)
    ensures |r| == |s|
    ensures forall i :: 0 <= i < |s| ==> r[i] == s[|s| - 1 - i]
  {
    if |s| == 0 then [] else [s[|s| - 1]] + Reverse(s[..|s| - 1])
  }

  lemma ReverseNoDup(s: seq<string>)
    requires NoDup(s)
    ensures NoDup(Reverse(s))
    ensures forall x :: x in Reverse(s) <==> x in s
  {
    var r := Reverse(s);
    forall x | x in s ensures x in r {
      var i :| 0 <= i < |s| && s[i] == x;
      assert r[|s| - 1 - i] == x;
    }
  }
}

=== FILE: hashing.dfy ===
/**
 The home slot of a key (PHPArray.java:184-186): Java's `String.hashCode`
 with the sign bit masked off, reduced modulo the capacity.
 */
module Hashing {

  const TwoTo32: nat := 0x1_0000_0000
  const TwoTo31: nat := 0x8000_0000

  /**
   `String.hashCode` read as an unsigned 32-bit value:
   `h = 31 * h + c` over the characters, wrapping at 2^32.
   */
  function HashCode(s: string): (r: nat)
    ensures r < TwoTo32
  {
    if |s| == 0 then 0
    else (31 * HashCode(s[..|s| - 1]) + s[|s| - 1] as int) % TwoTo32
  }

  /** `(key.hashCode() & 0x7fffffff) % M`: always a slot of the table. */
  function Home(k: string, m: nat): (r: nat)
    requires 0 < m
    ensures r < m
  {
    (HashCode(k) % TwoTo31) % m
  }

  /** Values Java gives: `"".hashCode() == 0`, `"a".hashCode() == 97`, `"ab".hashCode() == 3105`. */
  lemma HashCodeKnownValues()
    ensures HashCode("") == 0 && HashCode("a") == 97 && HashCode("ab") == 3105
  {
    assert "ab"[..1] == "a";
    assert "a"[..0] == "";
  }
}

=== FILE: int_keys.dfy ===
/**
 Integer keys (PHPArray.java:78-81, 92-95, 178-181): `put(int, V)`,
 `get(int)` and `unset(int)` turn the key into its decimal string with
 `Integer.toString` and use the string operation.
 */
module IntKeys {

  /** Java's 32-bit `int`. */
  newtype Int32 = x: int | -0x8000_0000 <= x < 0x8000_0000

  predicate IsDigit(c: char) {
    '0' <= c <= '9'
  }

  function DigitChar(d: nat): (c: char)
    requires d < 10
    ensures IsDigit(c) && c as int - '0' as int == d
  {
    ('0' as int + d) as char
  }

  /** Decimal digits of `n`, most significant first, without leading zeros. */
  function Digits(n: nat): (r: string)
    ensures 0 < |r| && forall i :: 0 <= i < |r| ==> IsDigit(r[i])
  {
    if n < 10 then [DigitChar(n)] else Digits(n / 10) + [DigitChar(n % 10)]
  }

  /** `Integer.toString(i)`: a minus sign for negatives, then the digits of `|i|`. */
  function IntToString(i: Int32): string {
    if i < 0 then "-" + Digits(-(i as int)) else Digits(i as int)
  }

  function ParseDigits(s: string): nat
    requires forall i :: 0 <= i < |s| ==> IsDigit(s[i])
  {
    if |s| == 0 then 0
    else
      assert IsDigit(s[|s| - 1]);
      ParseDigits(s[..|s| - 1]) * 10 + (s[|s| - 1] as int - '0' as int)
  }

  /** Reads back a string produced by `IntToString`. */
  function ParseInt(s: string): int
    requires 0 < |s|
    requires forall i :: 0 < i < |s| ==> IsDigit(s[i])
    requires s[0] == '-' || IsDigit(s[0])
  {
    if s[0] == '-' then -(ParseDigits(s[1..]) as int) else ParseDigits(s)
  }

  lemma {:induction false} DigitsRoundTrip(n: nat)
    ensures ParseDigits(Digits(n)) == n
  {
    if n >= 10 {
      var d := Digits(n);
      assert d[..|d| - 1] == Digits(n / 10);
      DigitsRoundTrip(n / 10);
    }
  }

  lemma IntToStringRoundTrip(i: Int32)
    ensures ParseInt(IntToString(i)) == i as int
  {
    if i < 0 {
      DigitsRoundTrip(-(i as int));
      assert IntToString(i)[1..] == Digits(-(i as int));
    } else {
      DigitsRoundTrip(i as int);
    }
  }

  /** Distinct integer keys never collide as strings. */
  lemma IntKeysDistinct(i: Int32, j: Int32)
    requires i != j
    ensures IntToString(i) != IntToString(j)
  {
    IntToStringRoundTrip(i);
    IntToStringRoundTrip(j);
  }
}

=== FILE: null_values.dfy ===
/**
 Null values. Java lets `put` receive `null`, and `get` answers `null` both
 for a missing key and for a key bound to `null`. Here a table whose values
 may be null is a `PHPArray<Option<W>>`, with `None` standing for `null`.

 As written, `put(key, null)` (PHPArray.java:38-40) calls `unset(key)` and
 then falls through into the ordinary insertion, so it stores `key -> null`
 at the tail of the chain. `unset` (PHPArray.java:127-129) then mistakes that
 entry for a missing key and never removes it. The evidently intended
 behaviour is that `put(key, null)` is `unset(key)`.
 */
module NullValues {
  import opened Wrappers
  import opened OrderedMaps
  import opened PHPArrays
  import opened Properties

  /** Java's `get`: `null` for a missing key and for a key bound to `null` alike. */
  function JavaGet<W>(a: PHPArray<Option<W>>, k: string): (r: Option<W>)
    requires Valid(a)
    ensures r.Some? ==> k in Keys(a) && Get(a, k) == Some(r)
    ensures r.None? <==> (k !in Keys(a) || Get(a, k) == Some(None))
  {
    match Get(a, k)
    case None => None
    case Some(x) => x
  }

  /** `unset(key)` as written: its guard is the Java `get`, so a `null` entry looks absent. */
  function UnsetAsWritten<W>(a: PHPArray<Option<W>>, k: string): (r: PHPArray<Option<W>>)
    requires Valid(a)
    ensures Valid(r)
    ensures JavaGet(a, k).None? ==> r == a
    ensures JavaGet(a, k).Some? ==> r == Unset(a, k) && k !in Keys(r)
  {
    if JavaGet(a, k).None? then a else Unset(a, k)
  }

  /** `put(key, val)` as written: a `null` value unsets the key and then is inserted anyway. */
  function PutAsWritten<W>(a: PHPArray<Option<W>>, k: string, v: Option<W>): (r: PHPArray<Option<W>>)
    requires Valid(a)
    ensures Valid(r) && k in Keys(r) && Get(r, k) == Some(v)
  {
    var t := if v.None? then UnsetAsWritten(a, k) else a;
    Put(t, k, v)
  }

  /**
   The discrepancy: after `put(k, null)` for a fresh key, `get(k)` says the
   key is missing, yet `keys()` lists it, `length()` counts it, and `unset(k)`
   cannot remove it.
   */
  lemma NullEntrySticks<W>(a: PHPArray<Option<W>>, k: string)
    requires Valid(a) && k !in Keys(a)
    ensures var b := PutAsWritten(a, k, None);
      && JavaGet(b, k) == None
      && Keys(b) == Keys(a) + [k]
      && Length(b) == Length(a) + 1
      && UnsetAsWritten(b, k) == b
  {
    var b := PutAsWritten(a, k, None);
    assert UnsetAsWritten(a, k) == a;
    PutNewKey(a, k, None);
  }

  /** The intended `put`: a `null` value removes the key, anything else is stored. */
  function PutNullable<W>(a: PHPArray<Option<W>>, k: string, v: Option<W>): (r: PHPArray<Option<W>>)
    requires Valid(a)
    ensures Valid(r)
    ensures v.None? ==> Abstract(r) == OUnset(Abstract(a), k) && k !in Keys(r)
    ensures v.Some? ==> Abstract(r) == OPut(Abstract(a), k, v) && Get(r, k) == Some(v)
  {
    if v.None? then Unset(a, k) else Put(a, k, v)
  }

  /** No key is bound to `null`. */
  ghost predicate NoNulls<W>(a: PHPArray<Option<W>>)
    requires Valid(a)
  {
    forall k :: k in Keys(a) ==> Get(a, k) != Some(None)
  }

  /** The intended `put` never stores `null`. */
  lemma PutNullableNoNulls<W>(a: PHPArray<Option<W>>, k: string, v: Option<W>)
    requires Valid(a) && NoNulls(a)
    ensures NoNulls(PutNullable(a, k, v))
  {
    var r := PutNullable(a, k, v);
    forall k' | k' in Keys(r) ensures Get(r, k') != Some(None) {
      if k' != k {
        if v.None? {
          OUnsetWellFormed(Abstract(a), k);
        } else {
          OPutWellFormed(Abstract(a), k, v);
        }
        assert k' in Keys(a);
      }
    }
  }

  /** Without `null` entries, the `get` guard of `unset` is exact: it is the intended `unset`. */
  lemma UnsetGuardExact<W>(a: PHPArray<Option<W>>, k: string)
    requires Valid(a) && NoNulls(a)
    ensures UnsetAsWritten(a, k) == Unset(a, k)
  {
    if JavaGet(a, k).None? {
      assert k !in Keys(a);
    }
  }

  /** With the intended `put`, putting `null` and then unsetting removes the key. */
  lemma PutNullThenUnset<W>(a: PHPArray<Option<W>>, k: string)
    requires Valid(a)
    ensures k !in Keys(UnsetAsWritten(PutNullable(a, k, None), k))
    ensures Length(PutNullable(a, k, None)) == if k in Keys(a) then Length(a) - 1 else Length(a)
  {
    var r := PutNullable(a, k, None);
    OUnsetWellFormed(Abstract(a), k);
    if k in Keys(a) {
      UnsetPresent(a, k);
    }
  }
}

=== FILE: ordered_map.dfy ===
/**
 The abstract meaning of the container: an insertion-ordered finite map from
 string keys to values. `keys` lists the live keys in first-insertion order;
 `vals` binds each of them.
 */
module OrderedMaps {
  import opened Wrappers
  import opened EntryChain

  datatype OrderedMap<V> = OrderedMap(keys: seq<string>, vals: map<string, V>)

  ghost predicate WellFormed<V>(om: OrderedMap<V>) {
    && NoDup(om.keys)
    && forall k :: k in om.keys <==> k in om.vals
  }

  function OEmpty<V>(): (om: OrderedMap<V>)
    ensures WellFormed(om)
  {
    OrderedMap([], map[])
  }

  function OGet<V>(om: OrderedMap<V>, k: string): Option<V> {
    if k in om.vals then Some(om.vals[k]) else None
  }

  /** Binding an absent key appends it; rebinding a live key keeps its place. */
  function OPut<V>(om: OrderedMap<V>, k: string, v: V): OrderedMap<V> {
    OrderedMap(if k in om.vals then om.keys else om.keys + [k], om.vals[k := v])
  }

  /** Removing a key drops it from the order; an absent key changes nothing. */
  function OUnset<V>(om: OrderedMap<V>, k: string): OrderedMap<V> {
    if k in om.vals then OrderedMap(Without(om.keys, k), om.vals - {k}) else om
  }

  lemma OPutWellFormed<V>(om: OrderedMap<V>, k: string, v: V)
    requires WellFormed(om)
    ensures WellFormed(OPut(om, k, v))
    ensures |OPut(om, k, v).keys| == if k in om.vals then |om.keys| else |om.keys| + 1
    ensures OGet(OPut(om, k, v), k) == Some(v)
    ensures forall k' :: k' != k ==> OGet(OPut(om, k, v), k') == OGet(om, k')
  {
  }

  lemma OUnsetWellFormed<V>(om: OrderedMap<V>, k: string)
    requires WellFormed(om)
    ensures WellFormed(OUnset(om, k))
    ensures |OUnset(om, k).keys| == if k in om.vals then |om.keys| - 1 else |om.keys|
    ensures OGet(OUnset(om, k), k) == None
    ensures forall k' :: k' != k ==> OGet(OUnset(om, k), k') == OGet(om, k')
  {
    WithoutMembers(om.keys, k);
  }
}

=== FILE: php_array.dfy ===
/**
 The container of PHPArray.java: the probe table and the entry chain kept in
 step, plus the `each`/`reset` cursor. Every operation is a pure function
 from the old state to the new one, and each is shown to refine the abstract
 insertion-ordered map of `OrderedMaps`.
 */
module PHPArrays {
  import opened Wrappers
  import opened Cyclic
  import opened Hashing
  import opened EntryChain
  import opened OrderedMaps
  import opened ProbeTable
  import opened ClusterRepair
  import opened IntKeys

  /** `INIT_CAPACITY` (PHPArray.java:4). */
  const InitCapacity: nat := 4

  /**
   The `each` cursor (the `iter` field, PHPArray.java:10): `NoCursor` while
   `iter` is null, `At(i)` when it will hand out the `i`-th entry of the
   chain next, `Stale` once it points into nodes that an `unset`, resize or
   `clear` has detached from the chain.
   */
  datatype Cursor = NoCursor | At(pos: nat) | Stale

  /** `Pair<V>` (PHPArray.java:249-263), as handed out by `pairs()` and `each()`. */
  datatype Pair<V> = Pair(key: string, value: V)

  /**
   The state: `entries` (M is its length), the chain from `head` to `tail`
   as the sequence of its keys, the count `N` and the cursor.
   */
  datatype PHPArray<V> = PHPArray(slots: Slots<V>, order: seq<string>, n: nat, cursor: Cursor)

  /** The representation invariant kept by every public operation. */
  ghost predicate Valid<V>(a: PHPArray<V>) {
    && 0 < |a.slots|
    && a.n == |a.order| && a.n < |a.slots|
    && Count(a.slots) == a.n
    && KeysUnique(a.slots) && ProbeInv(a.slots)
    && NoDup(a.order)
    && (forall k :: k in a.order <==> Lookup(a.slots, k).Some?)
    && (a.cursor.At? ==> a.cursor.pos <= |a.order|)
  }

  /** The insertion-ordered map a valid state stands for. */
  ghost function Abstract<V>(a: PHPArray<V>): OrderedMap<V> {
    OrderedMap(a.order, map k | k in a.order && Lookup(a.slots, k).Some? :: Lookup(a.slots, k).value)
  }

  lemma AbstractLookup<V>(a: PHPArray<V>, k: string)
    requires Valid(a)
    ensures OGet(Abstract(a), k) == Lookup(a.slots, k)
    ensures WellFormed(Abstract(a))
  {
  }

  /** Two valid states with the same chain and the same bindings mean the same map. */
  lemma AbstractSame<V>(a: PHPArray<V>, b: PHPArray<V>)
    requires Valid(a) && Valid(b) && a.order == b.order
    requires forall k :: Lookup(a.slots, k) == Lookup(b.slots, k)
    ensures Abstract(a) == Abstract(b)
  {
  }

  lemma AbstractPut<V>(a: PHPArray<V>, r: PHPArray<V>, k: string, v: V)
    requires forall x :: x in a.order <==> Lookup(a.slots, x).Some?
    requires r.order == if k in a.order then a.order else a.order + [k]
    requires Lookup(r.slots, k) == Some(v)
    requires forall k' :: k' != k ==> Lookup(r.slots, k') == Lookup(a.slots, k')
    ensures Abstract(r) == OPut(Abstract(a), k, v)
  {
    var av := Abstract(a).vals;
    var rv := Abstract(r).vals;
    assert (k in av) == (k in a.order);
    forall x ensures x in rv <==> x in av[k := v] {
    }
    forall x | x in rv ensures rv[x] == av[k := v][x] {
    }
    assert rv == av[k := v];
  }

  lemma AbstractUnset<V>(a: PHPArray<V>, r: PHPArray<V>, k: string)
    requires NoDup(a.order) && k in a.order
    requires forall x :: x in a.order <==> Lookup(a.slots, x).Some?
    requires r.order == Without(a.order, k)
    requires Lookup(r.slots, k) == None
    requires forall k' :: k' != k ==> Lookup(r.slots, k') == Lookup(a.slots, k')
    ensures Abstract(r) == OUnset(Abstract(a), k)
  {
    WithoutMembers(a.order, k);
    var av := Abstract(a).vals;
    var rv := Abstract(r).vals;
    assert k in av;
    forall x ensures x in rv <==> x in av - {k} {
    }
    forall x | x in rv ensures rv[x] == (av - {k})[x] {
    }
    assert rv == av - {k};
  }

  /** `new PHPArray<V>(capacity)` (PHPArray.java:18-25). */
  function Empty<V>(capacity: nat): (r: PHPArray<V>)
    requires 0 < capacity
    ensures Valid(r) && |r.slots| == capacity
    ensures Abstract(r) == OEmpty()
  {
    CountEmpty<V>(capacity);
    PHPArray(EmptySlots(capacity), [], 0, NoCursor)
  }

  /** `new PHPArray<V>()` (PHPArray.java:13-15). */
  function New<V>(): (r: PHPArray<V>)
    ensures Valid(r) && |r.slots| == InitCapacity
    ensures Abstract(r) == OEmpty()
  {
    Empty(InitCapacity)
  }

  /** `get(key)` (PHPArray.java:84-89): the probe finds the bound value, or null. */
  function Get<V>(a: PHPArray<V>, k: string): (r: Option<V>)
    requires Valid(a)
    ensures r == OGet(Abstract(a), k)
    ensures r.Some? <==> k in a.order
  {
    AbstractLookup(a, k);
    ProbeLookup(a.slots, k)
  }

  /**
   The probe-and-update-or-insert part of `put` (PHPArray.java:49-74): a
   live key gets its value replaced in place; an absent key goes into the
   first empty slot of its probe path, is appended to the chain and resets
   the cursor. The caller guarantees `N < M/2` (integer division).
   */
  function Insert<V>(a: PHPArray<V>, k: string, v: V): (r: PHPArray<V>)
    requires Valid(a) && a.n < |a.slots| / 2
    ensures Valid(r) && |r.slots| == |a.slots|
    ensures r.order == if k in a.order then a.order else a.order + [k]
    ensures Lookup(r.slots, k) == Some(v)
    ensures forall k' :: k' != k ==> Lookup(r.slots, k') == Lookup(a.slots, k')
    ensures r.cursor == if k in a.order then a.cursor else At(0)
  {
    var s := a.slots;
    var m := |s|;
    var h := Home(k, m);
    ProbeLocates(s, k);
    var o := Probe(s, k);
    var i := Index(h, o, m);
    if s[i].Some? then
      WriteOver(s, i, Node(k, v));
      ProbeInvOverwrite(s, i, Node(k, v));
      a.(slots := s[i := Some(Node(k, v))])
    else
      WriteNew(s, i, Node(k, v));
      DistOfIndex(h, o, m);
      ProbeInvFill(s, i, Node(k, v));
      PHPArray(s[i := Some(Node(k, v))], a.order + [k], a.n + 1, At(0))
  }

  /**
   The loop of `resize` (PHPArray.java:102-106): insert the keys `ks`, with
   their values in `src`, into `t` in chain order. The caller guarantees the
   growth check of the inner `put` never fires.
   */
  function Rebuild<V>(t: PHPArray<V>, src: Slots<V>, ks: seq<string>): (r: PHPArray<V>)
    requires Valid(t) && t.n + |ks| <= |t.slots| / 2
    requires NoDup(t.order + ks)
    requires forall k :: k in ks ==> Lookup(src, k).Some?
    ensures Valid(r) && |r.slots| == |t.slots|
    ensures r.order == t.order + ks
    ensures forall k :: Lookup(r.slots, k) == if k in ks then Lookup(src, k) else Lookup(t.slots, k)
    decreases |ks|
  {
    if |ks| == 0 then
      assert t.order + ks == t.order;
      t
    else
      assert ks[0] !in t.order by {
        forall i | 0 <= i < |t.order| ensures t.order[i] != ks[0] {
          assert (t.order + ks)[i] == t.order[i];
          assert (t.order + ks)[|t.order|] == ks[0];
        }
      }
      var t' := Insert(t, ks[0], Lookup(src, ks[0]).value);
      assert t'.order + ks[1..] == t.order + ks;
      Rebuild(t', src, ks[1..])
  }

  /** The cursor after its nodes were detached from the chain. */
  function Invalidate(c: Cursor): (r: Cursor)
    ensures !r.At?
  {
    if c.NoCursor? then NoCursor else Stale
  }

  /**
   `resize(capacity)` (PHPArray.java:98-111): rebuild the table at the new
   capacity by re-inserting the chain in order. `N` is kept; the cursor, if
   any, is left on the old nodes.
   */
  function Resize<V>(a: PHPArray<V>, capacity: nat): (r: PHPArray<V>)
    requires Valid(a) && 0 < capacity && a.n <= capacity / 2
    ensures Valid(r) && |r.slots| == capacity
    ensures Abstract(r) == Abstract(a)
    ensures r.cursor == Invalidate(a.cursor)
  {
    var t := Rebuild(Empty(capacity), a.slots, a.order);
    assert [] + a.order == a.order;
    var r := PHPArray(t.slots, t.order, a.n, Invalidate(a.cursor));
    AbstractSame(a, r);
    r
  }

  /**
   `put(key, val)` for a non-null `val` (PHPArray.java:38-75): before probing,
   double the table when `N >= M/2` (integer division), then update or insert.
   */
  function Put<V>(a: PHPArray<V>, k: string, v: V): (r: PHPArray<V>)
    requires Valid(a)
    ensures Valid(r)
    ensures Abstract(r) == OPut(Abstract(a), k, v)
    ensures |r.slots| == if a.n >= |a.slots| / 2 then 2 * |a.slots| else |a.slots|
    ensures r.cursor ==
      if k !in a.order then At(0)
      else if a.n >= |a.slots| / 2 then Invalidate(a.cursor)
      else a.cursor
  {
    var t := if a.n >= |a.slots| / 2 then Resize(a, 2 * |a.slots|) else a;
    assert t.order == a.order && forall k' :: Lookup(t.slots, k') == Lookup(a.slots, k') by {
      forall k' ensures Lookup(t.slots, k') == Lookup(a.slots, k') {
        AbstractLookup(a, k');
        AbstractLookup(t, k');
      }
    }
    var r := Insert(t, k, v);
    AbstractPut(a, r, k, v);
    r
  }

  /**
   The deletion proper of `unset` for a live key (PHPArray.java:132-171):
   clear its slot, unlink its node from the chain, re-probe the rest of the
   cluster, and decrement `N`.
   */
  function Remove<V>(a: PHPArray<V>, k: string): (r: PHPArray<V>)
    requires Valid(a) && k in a.order
    ensures Valid(r) && |r.slots| == |a.slots| && r.n == a.n - 1
    ensures Abstract(r) == OUnset(Abstract(a), k)
    ensures r.cursor == Invalidate(a.cursor)
  {
    var s := a.slots;
    var m := |s|;
    ProbeLocates(s, k);
    var i := Index(Home(k, m), Probe(s, k), m);
    RepairStart(s, i);
    ClearSlot(s, i);
    var s1 := Repair(s[i := None], Next(i, m));
    UnlinkIsWithout(a.order, k);
    WithoutMembers(a.order, k);
    var r := PHPArray(s1, Unlink(a.order, k), a.n - 1, Invalidate(a.cursor));
    RemoveValid(a, k, r);
    AbstractUnset(a, r, k);
    r
  }

  lemma RemoveValid<V>(a: PHPArray<V>, k: string, r: PHPArray<V>)
    requires Valid(a) && k in a.order
    requires |r.slots| == |a.slots| && ProbeInv(r.slots) && KeysUnique(r.slots)
    requires Count(r.slots) == Count(a.slots) - 1
    requires Lookup(r.slots, k) == None
    requires forall k' :: k' != k ==> Lookup(r.slots, k') == Lookup(a.slots, k')
    requires r.order == Without(a.order, k) && r.n == a.n - 1 && !r.cursor.At?
    ensures Valid(r)
  {
    WithoutMembers(a.order, k);
  }

  /**
   `unset(key)` (PHPArray.java:127-176): nothing for an absent key;
   otherwise remove it, and halve the table when it is left non-empty and
   at most one eighth full (`0 < N <= M/8`).
   */
  function Unset<V>(a: PHPArray<V>, k: string): (r: PHPArray<V>)
    requires Valid(a)
    ensures Valid(r)
    ensures Abstract(r) == OUnset(Abstract(a), k)
    ensures k !in a.order ==> r == a
    ensures k in a.order ==> r.cursor == Invalidate(a.cursor)
    ensures k in a.order ==>
      |r.slots| == (if 0 < a.n - 1 <= |a.slots| / 8 then |a.slots| / 2 else |a.slots|)
  {
    if Get(a, k).None? then a
    else
      var b := Remove(a, k);
      if b.n > 0 && b.n <= |a.slots| / 8 then Resize(b, |a.slots| / 2) else b
  }

  /** `put(int, V)`. */
  function PutInt<V>(a: PHPArray<V>, key: Int32, v: V): (r: PHPArray<V>)
    requires Valid(a)
    ensures Valid(r) && Abstract(r) == OPut(Abstract(a), IntToString(key), v)
  {
    Put(a, IntToString(key), v)
  }

  /** `get(int)`. */
  function GetInt<V>(a: PHPArray<V>, key: Int32): (r: Option<V>)
    requires Valid(a)
    ensures r == OGet(Abstract(a), IntToString(key))
  {
    Get(a, IntToString(key))
  }

  /** `unset(int)`. */
  function UnsetInt<V>(a: PHPArray<V>, key: Int32): (r: PHPArray<V>)
    requires Valid(a)
    ensures Valid(r) && Abstract(r) == OUnset(Abstract(a), IntToString(key))
  {
    Unset(a, IntToString(key))
  }

  /** `length()` (PHPArray.java:312-314): the count `N`. */
  function Length<V>(a: PHPArray<V>): (r: nat)
    requires Valid(a)
    ensures r == |Abstract(a).keys|
  {
    a.n
  }

  /** `keys()` (PHPArray.java:277-285): the keys read along the chain. */
  function Keys<V>(a: PHPArray<V>): (r: seq<string>)
    requires Valid(a)
    ensures r == Abstract(a).keys
    ensures |r| == Length(a) && NoDup(r)
    ensures forall k :: k in r <==> Get(a, k).Some?
  {
    a.order
  }

  /** The values bound to the keys `ks`, read along the chain. */
  function ValuesOf<V>(s: Slots<V>, ks: seq<string>): (r: seq<V>)
    requires forall k :: k in ks ==> Lookup(s, k).Some?
    ensures |r| == |ks|
    ensures forall i :: 0 <= i < |ks| ==> Lookup(s, ks[i]) == Some(r[i])
  {
    if |ks| == 0 then [] else [Lookup(s, ks[0]).value] + ValuesOf(s, ks[1..])
  }

  /**
   The chain only names keys the table binds: what `values()`, `pairs()` and
   `each()` need to read along it. Every valid state is linked.
   */
  ghost predicate Linked<V>(a: PHPArray<V>) {
    forall k :: k in a.order ==> Lookup(a.slots, k).Some?
  }

  /** `values()` (PHPArray.java:289-297), also what `iterator()` yields. */
  function Values<V>(a: PHPArray<V>): (r: seq<V>)
    requires Linked(a)
    ensures |r| == |a.order|
    ensures forall i :: 0 <= i < |r| ==> Lookup(a.slots, a.order[i]) == Some(r[i])
  {
    ValuesOf(a.slots, a.order)
  }

  /** The pairs for the keys `ks`, read along the chain. */
  function PairsOf<V>(s: Slots<V>, ks: seq<string>): (r: seq<Pair<V>>)
    requires forall k :: k in ks ==> Lookup(s, k).Some?
    ensures |r| == |ks|
    ensures forall i :: 0 <= i < |ks| ==> r[i].key == ks[i] && Lookup(s, ks[i]) == Some(r[i].value)
  {
    if |ks| == 0 then [] else [Pair(ks[0], Lookup(s, ks[0]).value)] + PairsOf(s, ks[1..])
  }

  /** `pairs()` (PHPArray.java:322-330), also what `PIterator()` yields. */
  function Pairs<V>(a: PHPArray<V>): (r: seq<Pair<V>>)
    requires Linked(a)
    ensures |r| == |a.order|
    ensures forall i :: 0 <= i < |r| ==> r[i].key == a.order[i] && Lookup(a.slots, a.order[i]) == Some(r[i].value)
  {
    PairsOf(a.slots, a.order)
  }

  /** `clear()` (PHPArray.java:334-338): a fresh table of the same capacity; `iter` is left alone. */
  function Clear<V>(a: PHPArray<V>): (r: PHPArray<V>)
    requires Valid(a)
    ensures Valid(r) && |r.slots| == |a.slots|
    ensures Abstract(r) == OEmpty()
    ensures r.cursor == Invalidate(a.cursor)
  {
    CountEmpty<V>(|a.slots|);
    PHPArray(EmptySlots(|a.slots|), [], 0, Invalidate(a.cursor))
  }

  /** `reset()` (PHPArray.java:317-319): a new cursor at the head of the chain. */
  function Reset<V>(a: PHPArray<V>): (r: PHPArray<V>)
    requires Valid(a)
    ensures Valid(r) && Abstract(r) == Abstract(a) && r.slots == a.slots
    ensures r.cursor == At(0)
  {
    a.(cursor := At(0))
  }

  /**
   `each()` (PHPArray.java:266-274): create the cursor if there is none, then
   hand out the pair under it and advance, or null past the tail.
   */
  function Each<V>(a: PHPArray<V>): (res: (Option<Pair<V>>, PHPArray<V>))
    requires Linked(a) && !a.cursor.Stale?
    ensures Linked(res.1) && (Valid(a) ==> Valid(res.1))
    ensures res.1.slots == a.slots && res.1.order == a.order && res.1.n == a.n
    ensures res.1.cursor.At?
    ensures var i := if a.cursor.At? then a.cursor.pos else 0;
      i < |Pairs(a)| ==> res.0 == Some(Pairs(a)[i]) && res.1.cursor == At(i + 1)
    ensures var i := if a.cursor.At? then a.cursor.pos else 0;
      i >= |Pairs(a)| ==> res.0 == None && res.1.cursor == At(i)
  {
    var i := if a.cursor.At? then a.cursor.pos else 0;
    if i < |a.order| then
      (Some(Pairs(a)[i]), a.(cursor := At(i + 1)))
    else
      (None, a.(cursor := At(i)))
  }

  /** `put` of an absent key, read on the table: appended, bound, nothing else moved. */
  lemma PutAppends<V>(t: PHPArray<V>, k: string, v: V)
    requires Valid(t) && k !in t.order
    ensures Put(t, k, v).order == t.order + [k]
    ensures forall k' :: Lookup(Put(t, k, v).slots, k') == if k' == k then Some(v) else Lookup(t.slots, k')
  {
    var r := Put(t, k, v);
    forall k' ensures Lookup(r.slots, k') == if k' == k then Some(v) else Lookup(t.slots, k') {
      AbstractLookup(t, k');
      AbstractLookup(r, k');
    }
  }

  lemma NoDupSplit(s: seq<string>, ks: seq<string>)
    requires NoDup(s + ks) && 0 < |ks|
    ensures ks[0] !in s
    ensures (s + [ks[0]]) + ks[1..] == s + ks
  {
    forall i | 0 <= i < |s| ensures s[i] != ks[0] {
      assert (s + ks)[i] == s[i];
      assert (s + ks)[|s|] == ks[0];
    }
  }

  /**
   The loop of `array_reverse` (PHPArray.java:425-429): `put` each key of
   `ks`, with its value in `src`, into `t`.
   */
  function PutAll<V>(t: PHPArray<V>, src: Slots<V>, ks: seq<string>): (r: PHPArray<V>)
    requires Valid(t) && NoDup(t.order + ks)
    requires forall k :: k in ks ==> Lookup(src, k).Some?
    ensures Valid(r)
    ensures r.order == t.order + ks
    ensures forall k :: Lookup(r.slots, k) == if k in ks then Lookup(src, k) else Lookup(t.slots, k)
    decreases |ks|
  {
    if |ks| == 0 then
      assert t.order + ks == t.order;
      t
    else
      NoDupSplit(t.order, ks);
      PutAppends(t, ks[0], Lookup(src, ks[0]).value);
      PutAll(Put(t, ks[0], Lookup(src, ks[0]).value), src, ks[1..])
  }

  /**
   `array_reverse()` (PHPArray.java:422-431): resets this array's cursor and
   returns a new array, of this array's capacity, holding the same bindings
   with the chain read from tail to head.
   */
  function ArrayReverse<V>(a: PHPArray<V>): (res: (PHPArray<V>, PHPArray<V>))
    requires Valid(a)
    ensures res.0 == Reset(a)
    ensures Valid(res.1)
    ensures Keys(res.1) == Reverse(Keys(a))
    ensures forall k :: Get(res.1, k) == Get(a, k)
  {
    ReverseNoDup(a.order);
    var ks := Reverse(a.order);
    assert [] + ks == ks;
    var rev := PutAll(Empty(|a.slots|), a.slots, ks);
    assert forall k :: Get(rev, k) == Get(a, k) by {
      forall k ensures Get(rev, k) == Get(a, k) {
        AbstractLookup(a, k);
        AbstractLookup(rev, k);
      }
    }
    (Reset(a), rev)
  }
}

=== FILE: probe_table.dfy ===
/**
 The probe table of PHPArray.java: an open-addressing array of slots, each
 empty (`null`) or holding one node, searched by linear probing from the
 key's home slot (PHPArray.java:7, 50-56, 84-89, 184-186).
 */
module ProbeTable {
  import opened Wrappers
  import opened Cyclic
  import opened Hashing

  /** The key/value part of a node; its chain links live in the entry chain. */
  datatype Node<V> = Node(key: string, value: V)

  type Slots<V> = seq<Option<Node<V>>>

  predicate Holds<V>(s: Slots<V>, q: nat, k: string)
    requires q < |s|
  {
    s[q].Some? && s[q].value.key == k
  }

  /** No two occupied slots hold the same key. */
  ghost predicate KeysUnique<V>(s: Slots<V>) {
    forall p, q ::
      (0 <= p < |s| && 0 <= q < |s| && s[p].Some? && s[q].Some? &&
       s[p].value.key == s[q].value.key) ==> p == q
  }

  /** A table of `m` empty slots: `new Node[M]`. */
  function EmptySlots<V>(m: nat): (s: Slots<V>)
    ensures |s| == m
    ensures forall q :: 0 <= q < m ==> s[q].None?
  {
    seq(m, _ => None)
  }

  /** The number of occupied slots. */
  function Count<V>(s: Slots<V>): (r: nat)
    ensures r <= |s|
  {
    if |s| == 0 then 0
    else Count(s[..|s| - 1]) + (if s[|s| - 1].Some? then 1 else 0)
  }

  lemma {:induction false} CountEmpty<V>(m: nat)
    ensures Count(EmptySlots<V>(m)) == 0
  {
    if m > 0 {
      assert EmptySlots<V>(m)[..m - 1] == EmptySlots<V>(m - 1);
      CountEmpty<V>(m - 1);
    }
  }

  /** Writing one slot changes the count by what left and what arrived. */
  lemma {:induction false} CountUpdate<V>(s: Slots<V>, q: nat, x: Option<Node<V>>)
    requires q < |s|
    ensures Count(s[q := x]) ==
      Count(s) - (if s[q].Some? then 1 else 0) + (if x.Some? then 1 else 0)
  {
    var t := s[q := x];
    if q == |s| - 1 {
      assert t[..|t| - 1] == s[..|s| - 1];
    } else {
      assert t[..|t| - 1] == s[..|s| - 1][q := x];
      CountUpdate(s[..|s| - 1], q, x);
    }
  }

  /** A table with fewer nodes than slots has an empty slot. */
  lemma {:induction false} EmptySlotExists<V>(s: Slots<V>) returns (x: nat)
    requires Count(s) < |s|
    ensures x < |s| && s[x].None?
  {
    if s[|s| - 1].None? {
      x := |s| - 1;
    } else {
      x := EmptySlotExists(s[..|s| - 1]);
    }
  }

  /** Linear scan for the slot holding `k`, from slot `q` on. */
  function SlotFrom<V>(s: Slots<V>, k: string, q: nat): (r: Option<nat>)
    requires q <= |s|
    ensures r.Some? ==> q <= r.value < |s| && Holds(s, r.value, k)
    ensures r.None? ==> forall p :: q <= p < |s| ==> !Holds(s, p, k)
    decreases |s| - q
  {
    if q == |s| then None
    else if Holds(s, q, k) then Some(q)
    else SlotFrom(s, k, q + 1)
  }

  /**
   Reference lookup that ignores hashing altogether: the value in the slot
   holding `k`, if any slot does.
   */
  function Lookup<V>(s: Slots<V>, k: string): (r: Option<V>)
    ensures r.None? <==> forall q :: 0 <= q < |s| ==> !Holds(s, q, k)
  {
    match SlotFrom(s, k, 0)
    case None => None
    case Some(q) => Some(s[q].value.value)
  }

  lemma LookupAt<V>(s: Slots<V>, q: nat, k: string)
    requires KeysUnique(s) && q < |s| && Holds(s, q, k)
    ensures Lookup(s, k) == Some(s[q].value.value)
  {
  }

  /**
   The probe invariant for the node in slot `p`: every slot on the way from
   its home slot to `p` is occupied, so a probe for its key cannot stop early.
   */
  ghost predicate Reachable<V>(s: Slots<V>, p: nat)
    requires p < |s|
  {
    && s[p].Some?
    && var h := Home(s[p].value.key, |s|);
       forall e :: 0 <= e < Dist(h, p, |s|) ==> s[Index(h, e, |s|)].Some?
  }

  ghost predicate ProbeInv<V>(s: Slots<V>) {
    forall p :: 0 <= p < |s| && s[p].Some? ==> Reachable(s, p)
  }

  /** Where the probe loop for `k` halts: an empty slot or a slot holding `k`. */
  predicate Stops<V>(s: Slots<V>, k: string, j: nat)
    requires j < |s|
  {
    s[j].None? || s[j].value.key == k
  }

  /**
   The probe loop of `put` and `get` (PHPArray.java:50-56, 85-87), counted in
   steps `d` from the start slot `h`; the result is the step at which it
   halts, or `|s|` after a full lap (which a table with an empty slot never
   reaches).
   */
  function ProbeFrom<V>(s: Slots<V>, k: string, h: nat, d: nat): (o: nat)
    requires h < |s| && d <= |s|
    ensures d <= o <= |s|
    ensures forall e :: d <= e < o ==> !Stops(s, k, Index(h, e, |s|))
    ensures o < |s| ==> Stops(s, k, Index(h, o, |s|))
    decreases |s| - d
  {
    if d == |s| then d
    else if Stops(s, k, Index(h, d, |s|)) then d
    else ProbeFrom(s, k, h, d + 1)
  }

  function Probe<V>(s: Slots<V>, k: string): nat
    requires 0 < |s|
  {
    ProbeFrom(s, k, Home(k, |s|), 0)
  }

  /** The probe for a live key halts exactly at the slot holding it. */
  lemma ProbeReaches<V>(s: Slots<V>, k: string, q: nat)
    requires 0 < |s| && ProbeInv(s) && KeysUnique(s)
    requires q < |s| && Holds(s, q, k)
    ensures Probe(s, k) == Dist(Home(k, |s|), q, |s|)
  {
    var m := |s|;
    var h := Home(k, m);
    var o := Probe(s, k);
    var d := Dist(h, q, m);
    assert Stops(s, k, Index(h, d, m));
    assert o <= d;
    assert Reachable(s, q);
    assert s[Index(h, o, m)].Some?;
    DistOfIndex(h, o, m);
  }

  /**
   Under the probe invariant the probe for `k` halts within one lap, at the
   slot holding `k` when some slot does, and at an empty slot otherwise.
   */
  lemma ProbeLocates<V>(s: Slots<V>, k: string)
    requires 0 < |s| && Count(s) < |s|
    requires ProbeInv(s) && KeysUnique(s)
    ensures Probe(s, k) < |s|
    ensures forall q :: 0 <= q < |s| && Holds(s, q, k) ==>
      Index(Home(k, |s|), Probe(s, k), |s|) == q
    ensures var i := Index(Home(k, |s|), Probe(s, k), |s|);
      (s[i].Some? ==> Holds(s, i, k)) &&
      (s[i].None? ==> forall q :: 0 <= q < |s| ==> !Holds(s, q, k))
  {
    var m := |s|;
    var h := Home(k, m);
    var x := EmptySlotExists(s);
    assert Stops(s, k, Index(h, Dist(h, x, m), m));
    forall q | 0 <= q < m && Holds(s, q, k)
      ensures Index(h, Probe(s, k), m) == q
    {
      ProbeReaches(s, k, q);
    }
  }

  /** The table's answer, via the probe: the source's `get`. */
  function ProbeLookup<V>(s: Slots<V>, k: string): (r: Option<V>)
    requires 0 < |s| && Count(s) < |s|
    requires ProbeInv(s) && KeysUnique(s)
    ensures r == Lookup(s, k)
  {
    ProbeLocates(s, k);
    var i := Index(Home(k, |s|), Probe(s, k), |s|);
    if s[i].Some? then
      LookupAt(s, i, k);
      Some(s[i].value.value)
    else None
  }

  /** Under unique keys a lookup depends only on the slots holding the key. */
  lemma LookupSame<V>(s: Slots<V>, t: Slots<V>, k: string)
    requires KeysUnique(s) && KeysUnique(t) && |s| == |t|
    requires forall p :: 0 <= p < |s| ==> (Holds(s, p, k) <==> Holds(t, p, k))
    requires forall p :: 0 <= p < |s| && Holds(s, p, k) ==> s[p] == t[p]
    ensures Lookup(s, k) == Lookup(t, k)
  {
    var r := SlotFrom(s, k, 0);
    if r.Some? {
      LookupAt(s, r.value, k);
      LookupAt(t, r.value, k);
    } else {
      assert forall p :: 0 <= p < |t| ==> !Holds(t, p, k);
    }
  }

  /** Writing a node for an absent key into an empty slot. */
  lemma WriteNew<V>(s: Slots<V>, q: nat, node: Node<V>)
    requires KeysUnique(s) && q < |s| && s[q].None?
    requires Lookup(s, node.key).None?
    ensures KeysUnique(s[q := Some(node)])
    ensures Count(s[q := Some(node)]) == Count(s) + 1
    ensures Lookup(s[q := Some(node)], node.key) == Some(node.value)
    ensures forall k :: k != node.key ==> Lookup(s[q := Some(node)], k) == Lookup(s, k)
  {
    var t := s[q := Some(node)];
    CountUpdate(s, q, Some(node));
    assert forall p :: 0 <= p < |s| ==> !Holds(s, p, node.key);
    forall p | 0 <= p < |t| && p != q ensures !Holds(t, p, node.key) {
      assert t[p] == s[p] && !Holds(s, p, node.key);
    }
    forall p1, p2 | 0 <= p1 < |t| && 0 <= p2 < |t| && t[p1].Some? && t[p2].Some? &&
      t[p1].value.key == t[p2].value.key
      ensures p1 == p2
    {
      assert Holds(t, p1, t[p1].value.key) && Holds(t, p2, t[p2].value.key);
      if p1 != q && p2 != q {
        assert s[p1] == t[p1] && s[p2] == t[p2];
      }
    }
    LookupAt(t, q, node.key);
    forall k | k != node.key ensures Lookup(t, k) == Lookup(s, k) {
      LookupSame(s, t, k);
    }
  }

  /** Overwriting the node of a live key with a new value for it. */
  lemma WriteOver<V>(s: Slots<V>, q: nat, node: Node<V>)
    requires KeysUnique(s) && q < |s| && Holds(s, q, node.key)
    ensures KeysUnique(s[q := Some(node)])
    ensures Count(s[q := Some(node)]) == Count(s)
    ensures Lookup(s[q := Some(node)], node.key) == Some(node.value)
    ensures forall k :: k != node.key ==> Lookup(s[q := Some(node)], k) == Lookup(s, k)
  {
    var t := s[q := Some(node)];
    CountUpdate(s, q, Some(node));
    assert KeysUnique(t);
    LookupAt(t, q, node.key);
    forall k | k != node.key ensures Lookup(t, k) == Lookup(s, k) {
      LookupSame(s, t, k);
    }
  }

  /** Clearing the slot of a live key: `entries[i] = null`. */
  lemma ClearSlot<V>(s: Slots<V>, q: nat)
    requires KeysUnique(s) && q < |s| && s[q].Some?
    ensures KeysUnique(s[q := None])
    ensures Count(s[q := None]) == Count(s) - 1
    ensures Lookup(s[q := None], s[q].value.key) == None
    ensures forall k :: k != s[q].value.key ==> Lookup(s[q := None], k) == Lookup(s, k)
  {
    var t := s[q := None];
    CountUpdate(s, q, None);
    assert KeysUnique(t);
    assert forall p :: 0 <= p < |t| ==> !Holds(t, p, s[q].value.key);
    forall k | k != s[q].value.key ensures Lookup(t, k) == Lookup(s, k) {
      LookupSame(s, t, k);
    }
  }

  /** Filling an empty slot whose probe path is occupied keeps the invariant. */
  lemma ProbeInvFill<V>(s: Slots<V>, q: nat, node: Node<V>)
    requires ProbeInv(s) && q < |s| && s[q].None?
    requires forall e :: 0 <= e < Dist(Home(node.key, |s|), q, |s|) ==>
      s[Index(Home(node.key, |s|), e, |s|)].Some?
    ensures ProbeInv(s[q := Some(node)])
  {
    var t := s[q := Some(node)];
    forall p | 0 <= p < |t| && t[p].Some? ensures Reachable(t, p) {
      if p != q {
        assert Reachable(s, p);
      }
    }
  }

  /** Replacing a node by one with the same key keeps the invariant. */
  lemma ProbeInvOverwrite<V>(s: Slots<V>, q: nat, node: Node<V>)
    requires ProbeInv(s) && q < |s| && Holds(s, q, node.key)
    ensures ProbeInv(s[q := Some(node)])
  {
    var t := s[q := Some(node)];
    forall p | 0 <= p < |t| && t[p].Some? ensures Reachable(t, p) {
      assert Reachable(s, p);
    }
  }
}

=== FILE: properties.dfy ===
/**
 Properties of the container stated on its public views (`get`, `keys`,
 `values`, `pairs`, `length`, `each`), each derived from the refinement of
 the abstract insertion-ordered map.
 */
module Properties {
  import opened Wrappers
  import opened Cyclic
  import opened Hashing
  import opened EntryChain
  import opened OrderedMaps
  import opened ProbeTable
  import opened PHPArrays

  /**
   `put` of a new key with a non-null value stores it in the first empty
   slot of its probe path (after the growth check) and changes no other slot.
   */
  lemma InsertFirstEmpty<V>(a: PHPArray<V>, k: string, v: V)
    requires Valid(a) && a.n < |a.slots| / 2 && k !in Keys(a)
    ensures var s := a.slots; var h := Home(k, |s|); var o := Probe(s, k);
      && o < |s| && s[Index(h, o, |s|)].None?
      && (forall e :: 0 <= e < o ==> s[Index(h, e, |s|)].Some?)
      && Insert(a, k, v).slots == s[Index(h, o, |s|) := Some(Node(k, v))]
  {
    var s := a.slots;
    var i := Index(Home(k, |s|), Probe(s, k), |s|);
    ProbeLocates(s, k);
  }

  /** A new key goes to the end of `keys()`, `length()` grows by one, nothing else changes. */
  lemma PutNewKey<V>(a: PHPArray<V>, k: string, v: V)
    requires Valid(a) && k !in Keys(a)
    ensures Keys(Put(a, k, v)) == Keys(a) + [k]
    ensures Length(Put(a, k, v)) == Length(a) + 1
    ensures Get(Put(a, k, v), k) == Some(v)
    ensures forall k' :: k' != k ==> Get(Put(a, k, v), k') == Get(a, k')
    ensures Put(a, k, v).cursor == At(0)
  {
    AbstractLookup(a, k);
    OPutWellFormed(Abstract(a), k, v);
  }

  /** Re-putting a live key replaces its value only: same `keys()`, same `length()`. */
  lemma PutUpdateInPlace<V>(a: PHPArray<V>, k: string, v: V)
    requires Valid(a) && k in Keys(a)
    ensures Keys(Put(a, k, v)) == Keys(a)
    ensures Length(Put(a, k, v)) == Length(a)
    ensures Get(Put(a, k, v), k) == Some(v)
    ensures forall k' :: k' != k ==> Get(Put(a, k, v), k') == Get(a, k')
    ensures a.n < |a.slots| / 2 ==> Put(a, k, v).cursor == a.cursor
  {
    AbstractLookup(a, k);
    OPutWellFormed(Abstract(a), k, v);
  }

  /** `unset` of an absent key is a no-op. */
  lemma UnsetAbsent<V>(a: PHPArray<V>, k: string)
    requires Valid(a) && Get(a, k).None?
    ensures Unset(a, k) == a
  {
  }

  /**
   `unset` of a live key removes exactly that key from `keys()`, keeping the
   others in order, decrements `length()` and leaves every other `get`.
   */
  lemma UnsetPresent<V>(a: PHPArray<V>, k: string)
    requires Valid(a) && k in Keys(a)
    ensures Keys(Unset(a, k)) == Without(Keys(a), k) == Unlink(Keys(a), k)
    ensures Length(Unset(a, k)) == Length(a) - 1
    ensures Get(Unset(a, k), k) == None
    ensures forall k' :: k' != k ==> Get(Unset(a, k), k') == Get(a, k')
  {
    AbstractLookup(a, k);
    OUnsetWellFormed(Abstract(a), k);
    UnlinkIsWithout(a.order, k);
  }

  lemma WithoutAppended(s: seq<string>, k: string)
    requires NoDup(s) && k !in s
    ensures Without(s + [k], k) == s
  {
    var t := s + [k];
    assert NoDup(t) by {
      forall i, j | 0 <= i < j < |t| ensures t[i] != t[j] {
        if j == |s| {
          assert t[i] == s[i];
        } else {
          assert t[i] == s[i] && t[j] == s[j];
        }
      }
    }
    UnlinkIsWithout(t, k);
    assert IndexOf(t, k) == |s|;
    assert t[..|s|] == s;
  }

  /** `unset` undoes the `put` of a key that was absent. */
  lemma UnsetUndoesPut<V>(a: PHPArray<V>, k: string, v: V)
    requires Valid(a) && k !in Keys(a)
    ensures Abstract(Unset(Put(a, k, v), k)) == Abstract(a)
    ensures Keys(Unset(Put(a, k, v), k)) == Keys(a)
  {
    var b := Put(a, k, v);
    AbstractLookup(a, k);
    WithoutAppended(a.order, k);
    assert Abstract(b).vals - {k} == Abstract(a).vals;
  }

  /** Growth and shrinking change the capacity but not the map, the key order, or `N < M`. */
  lemma ResizeTransparent<V>(a: PHPArray<V>, capacity: nat)
    requires Valid(a) && 0 < capacity && a.n <= capacity / 2
    ensures Keys(Resize(a, capacity)) == Keys(a)
    ensures forall k :: Get(Resize(a, capacity), k) == Get(a, k)
    ensures Length(Resize(a, capacity)) == Length(a) < capacity
  {
  }

  /** Before probing, `put` doubles the table when `N >= M/2` (integer division); `unset` halves a table left non-empty and at most one eighth full. */
  lemma CapacityPolicy<V>(a: PHPArray<V>, k: string, v: V)
    requires Valid(a)
    ensures a.n >= |a.slots| / 2 ==> |Put(a, k, v).slots| == 2 * |a.slots|
    ensures a.n < |a.slots| / 2 ==> |Put(a, k, v).slots| == |a.slots|
    ensures k in Keys(a) && 0 < a.n - 1 <= |a.slots| / 8 ==> |Unset(a, k).slots| == |a.slots| / 2
    ensures Length(Put(a, k, v)) < |Put(a, k, v).slots|
    ensures Length(Unset(a, k)) < |Unset(a, k).slots|
  {
  }

  /** Removing the last key never shrinks the table: the halving needs `N > 0` afterwards. */
  lemma LastKeyNoShrink<V>(a: PHPArray<V>, k: string)
    requires Valid(a) && a.order == [k]
    ensures |Unset(a, k).slots| == |a.slots|
    ensures Length(Unset(a, k)) == 0
  {
  }

  /**
   The halving needs `0 < N <= M/8`, so only a table of at least 8 slots
   shrinks: a table of at least `INIT_CAPACITY` slots never drops below it.
   */
  lemma CapacityFloor<V>(a: PHPArray<V>, k: string, v: V)
    requires Valid(a) && |a.slots| >= InitCapacity
    ensures |Put(a, k, v).slots| >= InitCapacity
    ensures |Unset(a, k).slots| >= InitCapacity
  {
  }

  /** The outputs of `count` successive `each()` calls. */
  function EachN<V>(a: PHPArray<V>, count: nat): (r: seq<Option<Pair<V>>>)
    requires Linked(a) && !a.cursor.Stale?
    ensures |r| == count
    decreases count
  {
    if count == 0 then []
    else
      var step := Each(a);
      var b := step.1;
      [step.0] + EachN(b, count - 1)
  }

  /** What a full drain from position `i` should yield: the rest of `ps`, then null. */
  function Drain<T>(ps: seq<T>, i: nat): (r: seq<Option<T>>)
    requires i <= |ps|
    ensures |r| == |ps| - i + 1
    decreases |ps| - i
  {
    if i == |ps| then [None] else [Some(ps[i])] + Drain(ps, i + 1)
  }

  lemma {:induction false} DrainElements<T>(ps: seq<T>, i: nat)
    requires i <= |ps|
    ensures forall j :: 0 <= j < |ps| - i ==> Drain(ps, i)[j] == Some(ps[i + j])
    ensures Drain(ps, i)[|ps| - i] == None
    decreases |ps| - i
  {
    if i < |ps| {
      DrainElements(ps, i + 1);
      var d := Drain(ps, i + 1);
      assert Drain(ps, i) == [Some(ps[i])] + d;
      forall j | 0 < j < |ps| - i
        ensures Drain(ps, i)[j] == Some(ps[i + j])
      {
        assert Drain(ps, i)[j] == d[j - 1];
      }
    }
  }

  /** One call of `each()` before the tail: the pair at the cursor, and the cursor moves on. */
  lemma EachStep<V>(a: PHPArray<V>, i: nat, ps: seq<Pair<V>>)
    requires Linked(a) && a.cursor == At(i) && ps == Pairs(a) && i <= |ps|
    ensures i < |ps| ==> Each(a).0 == Some(ps[i]) && Each(a).1.cursor == At(i + 1)
    ensures i == |ps| ==> Each(a).0 == None
    ensures Pairs(Each(a).1) == ps
  {
    var b := Each(a).1;
    assert b.slots == a.slots && b.order == a.order;
  }

  lemma EachNUnfold<V>(a: PHPArray<V>, c: nat)
    requires Linked(a) && !a.cursor.Stale?
    ensures EachN(a, c + 1) == [Each(a).0] + EachN(Each(a).1, c)
  {
  }

  /** From position `i`, `each()` hands out the rest of `pairs()` in order, then null. */
  lemma {:induction false} EachFrom<V>(a: PHPArray<V>, i: nat, ps: seq<Pair<V>>)
    requires Linked(a) && a.cursor == At(i) && ps == Pairs(a) && i <= |ps|
    ensures EachN(a, |ps| - i + 1) == Drain(ps, i)
    decreases |ps| - i
  {
    EachStep(a, i, ps);
    var b := Each(a).1;
    EachNUnfold(a, |ps| - i);
    if i < |ps| {
      EachFrom(b, i + 1, ps);
    }
  }

  /** After `reset()`, `each()` returns the pairs in `pairs()` order and then null. */
  lemma EachAfterReset<V>(a: PHPArray<V>)
    requires Valid(a)
    ensures var r := EachN(Reset(a), Length(a) + 1);
      && (forall j :: 0 <= j < Length(a) ==> r[j] == Some(Pairs(a)[j]))
      && r[Length(a)] == None
  {
    var ps := Pairs(a);
    var b := Reset(a);
    assert Pairs(b) == ps by {
      assert b.slots == a.slots && b.order == a.order;
    }
    EachFrom(b, 0, ps);
    DrainElements(ps, 0);
    assert Length(a) == |ps| - 0;
    var r := EachN(b, Length(a) + 1);
    assert r == Drain(ps, 0);
    forall j | 0 <= j < Length(a)
      ensures r[j] == Some(ps[j])
    {
      assert r[j] == Drain(ps, 0)[j] == Some(ps[0 + j]);
    }
  }

  /** Without a cursor, `each()` first resets to the head of the chain. */
  lemma EachLazyReset<V>(a: PHPArray<V>)
    requires Valid(a) && a.cursor == NoCursor
    ensures Each(a) == Each(Reset(a))
  {
  }

  /** `keys()`, `values()` and `pairs()` line up entry by entry, over `length()` distinct keys. */
  lemma ViewsAligned<V>(a: PHPArray<V>)
    requires Valid(a)
    ensures |Keys(a)| == |Values(a)| == |Pairs(a)| == Length(a)
    ensures NoDup(Keys(a))
    ensures forall i :: 0 <= i < Length(a) ==>
      Pairs(a)[i] == Pair(Keys(a)[i], Values(a)[i]) && Get(a, Keys(a)[i]) == Some(Values(a)[i])
  {
  }

  /** `clear()` empties the map and keeps the capacity. */
  lemma ClearEmpties<V>(a: PHPArray<V>)
    requires Valid(a)
    ensures Keys(Clear(a)) == [] && Length(Clear(a)) == 0
    ensures |Clear(a).slots| == |a.slots|
    ensures forall k :: Get(Clear(a), k) == None
  {
  }
}

=== FILE: wrappers.dfy ===
/** The optional-value datatype used for Java's nullable references. */
module Wrappers {

  /** `None` stands for Java's `null`, `Some(v)` for a non-null reference. */
  datatype Option<+T> = None | Some(value: T)
}
